=== FILE: README.md ===
# Switch game: engine, multiplayer decisions and room store in Dafny

This project models the core of a browser party game. Players take turns
pressing one of five switches. One switch is a bomb: whoever presses it loses.
Whoever presses the last safe switch wins. A room can be shared between
browser tabs. The room creator is the host and runs the game. Guests copy the
host's published state and send it requests.

The model has four modules:

- `Wrappers` (`wrappers.dfy`): the `Option` type. It stands for JavaScript's
  `undefined`/`null` and for an operation that throws.
- `GameEngine` (`game_engine.dfy`): the one-round state machine of
  `js/gameState.js`. Its signals become the fields of an immutable
  `GameState`. `resetGame` and `pressSwitch` become pure transitions. The
  `currentPlayerName` and `pressedSwitchCount` views become functions. The
  round invariant `Valid` is proved to hold initially, after `resetGame`,
  after every press, and after the multiplayer `players` handler changes the
  turn list. It is not claimed for a guest's state, which copies whatever
  `gameState` record arrives.
- `Multiplayer` (`multiplayer.dfy`): the decision logic of
  `js/multiplayerState.js` with the peer store removed.
  - The room signals and the engine state form a `Session` record.
  - Each subscription handler and each exported action is a function of the
    session.
  - Every `put` the source makes is returned as a `Write` instead of being
    sent.
  - `Date.now()`, the random room code and the random bomb are parameters.
- `LocalStore` (`local_store.dfy`): the in-memory room store of
  `js/localMultiplayer.js`.
  - A room is a map from keys to JavaScript values.
  - Writes go to dotted paths.
  - Each room has a list of listeners. A listener is notified when its path
    starts, as a string, with the path written.
  - Callbacks are opaque numbers. Invoking one is reported as a
    `Notification`.

The components import names that js/multiplayerState.js does not export
(`characterAssignments`, `playerCharacter` and `roomStarted`, at
js/components/GameController.js:9-17). That suggests richer room behaviour
than the state module implements. The model follows the state module:

- The turn list is the active player names in store order, cut at four. The
  code does not sort by `joinedAt` and assigns no characters.
- Guests apply every incoming `gameState` record. The code has no timestamp
  guard; `Multiplayer.TimestampIgnored` states this.
- The code has no room-full check and no `roomStarted` flag.
- The host's request listener (js/multiplayerState.js:177-199) runs once at
  module load. At that moment `isHost` is still false, so the listener is
  never installed. Only its freshness test is modelled (`Multiplayer.Fresh`).
  The model does not claim that the host re-checks whose turn it is.
- Listener notification compares characters, not path segments. A write to
  `game` notifies a listener on `gameState` (`LocalStore.PrefixIsTextual`).

## Model

| member | source | states |
|---|---|---|
| GameEngine.CountPressed | js/gameState.js:20-22 | the pressed count is at most the number of switches, and is zero exactly when no switch is pressed |
| GameEngine.RemainingSafe | js/gameState.js:87 | the count of switches that are neither pressed nor the bomb never exceeds the number of switches; with RemainingZeroIff and Partition it is fixed on every list |
| GameEngine.RemainingZeroIff | js/gameState.js:87-88 | the source's win test (no switch left that is unpressed and not the bomb) holds exactly when every non-bomb switch is pressed |
| GameEngine.CountPressedUpdate | js/gameState.js:73-75 | pressing one unpressed switch raises the pressed count by exactly one |
| GameEngine.Partition | js/gameState.js:20-22 | with the bomb on the board, pressed switches + remaining safe switches + the unpressed bomb (if it is unpressed) = all switches |
| GameEngine.CurrentPlayerName | js/gameState.js:16-18 | the current player's name is always one of the listed players, and it is the indexed entry when the index is in range |
| GameEngine.PressedSwitchCount | js/gameState.js:20-22 | the view never exceeds the number of switches |
| GameEngine.Initial | js/gameState.js:4-13 | the module-load state is a valid round: not started and not over, nothing pressed, the given bomb, the default four-name turn list, turn 0, the start message, no bomb hit, no winner or loser |
| GameEngine.ResetGame | js/gameState.js:56-66 | a reset gives turn 0, no winner or loser, not over, five unpressed switches, the given bomb in [0,5), started, no bomb sound, the turn list kept, and an opening message naming player 0; the result satisfies the round invariant |
| GameEngine.PressSwitch | js/gameState.js:68-99 | a press when the game is over or not started, or on a pressed switch, changes nothing and returns false; an accepted press sets exactly that switch; the bomb makes the current player the loser, raises the sound flag, keeps the turn and returns true; the last safe switch makes the current player the winner and keeps the turn; any other safe switch moves the turn to (current + 1) mod player count and keeps the round going |
| GameEngine.PressCountsOnce | js/gameState.js:69-75 | an accepted press raises `pressedSwitchCount` by one; a refused one leaves it unchanged |
| GameEngine.PressTwiceIsRefused | js/gameState.js:70 | pressing the same switch twice in a row: the second press is refused and changes nothing |
| GameEngine.PressPreservesValid | js/gameState.js:68-99 | every press keeps the round invariant: the bomb is pressed only when the game is over, a winner means every safe switch and not the bomb was pressed, a loser means the bomb was pressed |
| GameEngine.RunningRoundBound | js/gameState.js:87-98 | while a round runs, at most three switches are down, so a round ends within four accepted presses |
| GameEngine.OutcomeMatchesBomb | js/gameState.js:78-93 | in a finished valid round, there is a winner exactly when the bomb is unpressed and a loser exactly when it is pressed |
| GameEngine.Play | js/gameState.js:68-99 | a sequence of presses never changes the turn list or the number of switches |
| GameEngine.PlayPreservesValid | js/gameState.js:68-99 | any sequence of presses keeps the round invariant |
| GameEngine.OverIsFinal | js/gameState.js:69 | once the game is over, no sequence of presses changes the state |
| Multiplayer.Upper | js/multiplayerState.js:50 | upper-casing keeps the length, leaves no lower-case ASCII letter, and keeps every other character |
| Multiplayer.UpperIdempotent | js/multiplayerState.js:40-43 | upper-casing twice is upper-casing once, so `joinRoom` stores the code `createRoom` made |
| Multiplayer.RoomCodeAlphabet | js/multiplayerState.js:40 | an upper-cased base-36 code consists of digits and upper-case letters |
| Multiplayer.RoomNode | js/multiplayerState.js:53 | a room's store node is the fixed prefix followed by the code |
| Multiplayer.RoomNodeInjective | js/multiplayerState.js:53 | distinct codes name distinct store nodes |
| Multiplayer.Last4 | js/multiplayerState.js:91 | `substr(-4)` yields the last four characters, or the whole of a shorter id |
| Multiplayer.DisplayName | js/multiplayerState.js:154 | the peer's name is the typed name, or "Player " and the id's tail when none was typed; it is never empty |
| Multiplayer.JoinedNameIsTurnName | js/multiplayerState.js:91 | the name a peer writes into its join record (line 91) is the name its turn check (line 154) compares with after joining |
| Multiplayer.InitialSession | js/multiplayerState.js:23-36 | the module-load session is offline, not host, without room code or typed name, and holds the engine's module-load round |
| Multiplayer.JoinRecord | js/multiplayerState.js:89-94 | the join record carries the local id, the display name, `active = true` and the join time |
| Multiplayer.JoinRoom | js/multiplayerState.js:47-105 | an empty code changes nothing and writes nothing; any other code stores its upper-cased form and sets connected, changes nothing else, writes the join record (local id, display name, active, join time) under the local id in that room, and registers an unload write equal to that record with `active = false` |
| Multiplayer.CreateRoom | js/multiplayerState.js:39-45 | the caller becomes host; the returned code is the upper-cased random text; a non-empty code is stored and joined, with the join record and unload write of `joinRoom` and no other session change; an empty code is stored but not joined: no writes and no unload write |
| Multiplayer.PresentPlayers | js/multiplayerState.js:73 | the kept records are object entries of the data, at most as many |
| Multiplayer.PresentPlayersAppend | js/multiplayerState.js:73 | keeping the object entries respects concatenation, so store order is kept |
| Multiplayer.PresentPlayersComplete | js/multiplayerState.js:73 | every object entry of the data is kept |
| Multiplayer.ActiveNames | js/multiplayerState.js:77-79 | the active names are at most as many as the records; ActiveNamesMembership gives their membership both ways |
| Multiplayer.ActiveNamesMembership | js/multiplayerState.js:77-79 | a name is in the active list exactly when some active record carries it |
| Multiplayer.TurnList | js/multiplayerState.js:77-80 | the derived turn list has at most four names, each the name of an active record |
| Multiplayer.OnPlayers | js/multiplayerState.js:71-86 | missing data changes nothing; otherwise `roomPlayers` becomes the object entries and only the turn list may also change; it becomes at most four active names or stays, and is never emptied |
| Multiplayer.OnPlayersTurnList | js/multiplayerState.js:77-84 | without an active player the turn list is kept; otherwise it is the active names in store order, cut at four |
| Multiplayer.OnPlayersPreservesValid | js/multiplayerState.js:82-84 | the `players` handler keeps the engine's round invariant and changes no engine field but the turn list |
| Multiplayer.TwoPlayerRoom | js/multiplayerState.js:71-96 | with the host's and a guest's join records in the store, listed host first, the turn list is host then guest, and on an even turn it is the host's turn |
| Multiplayer.Snapshot | js/multiplayerState.js:114-124 | the snapshot is stamped with the write time |
| Multiplayer.OnGameState | js/multiplayerState.js:56-68 | a host, or missing data, changes nothing; a guest takes each defined field of the record and keeps its own value for each undefined one; the turn list and sound flag are never taken from the record |
| Multiplayer.GuestConverges | js/multiplayerState.js:56-68 | a guest that receives the host's snapshot holds the host's round state, whatever it held before |
| Multiplayer.OnGameStateIdempotent | js/multiplayerState.js:56-68 | receiving the same record twice has the effect of receiving it once |
| Multiplayer.TimestampIgnored | js/multiplayerState.js:56-68 | the record's timestamp has no effect, so an older record is applied like a newer one |
| Multiplayer.SyncGameState | js/multiplayerState.js:108-125 | a snapshot of the session's game is written to the room exactly when connected, with a room code, and host; otherwise nothing is written |
| Multiplayer.ResetGameMultiplayer | js/multiplayerState.js:128-145 | offline: local reset, no write; host: local reset then the sync write; guest: session untouched and one reset request `{from, timestamp}` |
| Multiplayer.PressSwitchMultiplayer | js/multiplayerState.js:147-174 | offline: the local engine; connected and not this peer's turn: only the message becomes "It's X's turn!", result false, no write; host on its turn: the engine then the sync write; guest on its turn: one press request `{from, index, timestamp}`, session untouched, result undefined |
| Multiplayer.MyTurn | js/multiplayerState.js:153-156 | the turn gate passes only for a peer whose name is in the turn list, and, when the turn index is in range, exactly when the indexed name is the peer's name |
| Multiplayer.GuestNeverSimulates | js/multiplayerState.js:153-173 | a guest press changes at most the message, and writes one press request exactly when it is the guest's turn |
| Multiplayer.HostPressKeepsRoundValid | js/multiplayerState.js:156-164 | a host press keeps the round invariant, and publishes the resulting state exactly when it was the host's turn |
| Multiplayer.HostResetPublishes | js/multiplayerState.js:134-137 | a host reset gives a valid fresh round with the given bomb and publishes it |
| Multiplayer.Fresh | js/multiplayerState.js:185 | a request is honoured exactly when one is present and it is less than 5000 ms old |
| Multiplayer.FreshnessExpires | js/multiplayerState.js:193 | a request fresh at some time was fresh at every earlier time, and is stale once 5000 ms have passed |
| LocalStore.Prop | js/localMultiplayer.js:60 | a property read is `undefined` on a non-object and on a missing key |
| LocalStore.Split | js/localMultiplayer.js:27 | a path splits into at least one part, and no part contains a dot |
| LocalStore.SplitJoin | js/localMultiplayer.js:27 | joining the parts with dots gives the path back |
| LocalStore.JoinSplit | js/localMultiplayer.js:27 | splitting the dot-join of dot-free parts gives those parts back |
| LocalStore.Resolve | js/localMultiplayer.js:57-62 | the lookup finds `undefined` below a non-object or an empty object |
| LocalStore.ResolveAppend | js/localMultiplayer.js:57-62 | looking up a longer path is looking up its first part, then the rest from the value found, unless the walk already stopped at a falsy value |
| LocalStore.GetRoom | js/localMultiplayer.js:11-23 | a known code returns its room and changes nothing; an unknown one creates the room with empty `gameState` and `players` and `null` request slots |
| LocalStore.GetRoomStable | js/localMultiplayer.js:11-23 | a second `getRoom` returns the same room and changes nothing |
| LocalStore.Chain | js/localMultiplayer.js:30-35 | a write below a missing node builds an object with the single key on the path |
| LocalStore.SetPath | js/localMultiplayer.js:30-37 | a successful walk adds the first path key to the node and keeps every other key and its value |
| LocalStore.SetPathFailsIffBlocked | js/localMultiplayer.js:30-35 | the write throws exactly when it meets a truthy non-object before the last part |
| LocalStore.SetPathFresh | js/localMultiplayer.js:30-35 | below a missing or falsy node the write always succeeds and builds a chain of one-key objects |
| LocalStore.SetThenResolve | js/localMultiplayer.js:30-37 | after a write, the lookup `subscribe` does along the same path finds exactly the written value |
| LocalStore.SetPathOffPath | js/localMultiplayer.js:30-37 | a lookup along a path that leaves the written path finds the same truthy value as before, and nothing truthy where it found nothing before |
| LocalStore.Notify | js/localMultiplayer.js:40-45 | no more invocations than listeners, each with the written value |
| LocalStore.NotifyAppend | js/localMultiplayer.js:41 | listeners are visited in list order: the invocations for a concatenated list are those of each part, in turn |
| LocalStore.NotifySingle | js/localMultiplayer.js:42-44 | one listener yields exactly one invocation when its path starts with the written path and none otherwise; with NotifyAppend, one invocation per matching listener, in list order |
| LocalStore.Matches | js/localMultiplayer.js:42 | the listener test holds exactly when the listener's path starts with the written path (the equality test adds nothing), so the written path is never longer |
| LocalStore.NotifyMembership | js/localMultiplayer.js:42 | a callback is invoked exactly when one of its listeners' paths starts with the written path |
| LocalStore.UpdateRoom | js/localMultiplayer.js:25-46 | other rooms and all listeners are untouched; the write throws exactly when the walk is blocked, and then at most the room is created and nobody is notified; otherwise the room is the walk's result: the path holds the value, every top-level key other than the first part keeps its value, and the matching listeners of this room are invoked with it and no others, once per matching listener, in list order (the invocations are `Notify` of the room's list) |
| LocalStore.UpdateRoomOffPath | js/localMultiplayer.js:30-37 | after a successful write, a lookup in the room along a path that leaves the written path finds the same truthy value as before, and nothing truthy where it found nothing before |
| LocalStore.Subscribe | js/localMultiplayer.js:48-67 | the listener is appended to its room's list, other rooms' lists untouched and no list created for any other room, the room created if new; the callback is invoked at once exactly when the path resolves to a truthy value, and with that value |
| LocalStore.UpdateThenSubscribe | js/localMultiplayer.js:25-62 | after a successful write of a truthy value, a subscription on that path is handed that value at once |
| LocalStore.LongerPathSkipsAncestor | js/localMultiplayer.js:42 | a write never notifies a listener on a strictly shorter path |
| LocalStore.RequestsExample | js/localMultiplayer.js:42 | writing `requests.reset` skips a `requests` listener and notifies a `requests.reset.x` listener |
| LocalStore.PrefixIsTextual | js/localMultiplayer.js:42 | a write to `game` notifies a listener on `gameState` |
| LocalStore.NullSlotBecomesObject | js/localMultiplayer.js:16-35 | in a fresh room, writing `requests.reset.x` turns the `null` reset slot into an object holding the value, and the press slot stays `null` |

## Left out

- Peer store transport: the relay connection, its crypto plug-ins, and asynchronous `put`/`on` delivery (js/multiplayerState.js:1-3, 20). These are foreign network I/O. Writes are returned as values, and each subscription callback is a function the caller applies.
- The store's data model, including its metadata keys and its treatment of arrays. A `players` node is given to `Multiplayer.OnPlayers` as its list of values in store order. Each value is a record, or `None` for a `null` or non-object value.
- Reactive scheduling: the signal effects, including the host auto-sync effect (js/multiplayerState.js:202-217). This is ambient scheduling. Each handler is a function call instead.
- The host request-listener block (js/multiplayerState.js:177-199). It is never installed, because it runs at module load while `isHost` is false. Only its freshness test is modelled.
- Randomness and clocks: `Math.random` for the bomb, the room code and the player id, and `Date.now`. These are parameters.
- Audio playback, the 100 ms `bombHit` reset timer (js/gameState.js:25-53), and console logging.
- The web components, the URL helper and the build configuration: DOM, styling, clipboard, sharing and keyboard wiring.
- GameEngine.PressSwitch: requires an index inside the switch array. Writing past the end of a JavaScript array, which grows it, is not modelled. Every caller passes 0..4.
- GameEngine.CurrentPlayerName: requires a non-empty turn list. The source's `players[NaN]` for an empty list is not modelled. The list starts non-empty, and `Multiplayer.OnPlayers` never empties it.
- Multiplayer.Upper: upper-cases ASCII letters only. Full Unicode case mapping, which can change a string's length, is not modelled.
- Multiplayer.OnGameState: incoming field values are typed. The source copies whatever value arrives, for example a non-integer `currentPlayer`.
- LocalStore.Prop: reads on primitive values (string indexing, `length`) and inherited object properties (`toString`, `__proto__`) give `undefined`.
- LocalStore.UpdateRoom: the store has value semantics. The source stores `data` by reference (js/localMultiplayer.js:37), `getRoom` returns the live room (line 22), and `subscribe` hands its callback the live subtree (line 65). Aliasing between those and later writes is not modelled.
- LocalStore.UpdateRoom: store values have no arrays and no floating-point numbers. Callbacks that call back into the store during notification are not modelled.

=== FILE: game_engine.dfy ===
/** The single-round game engine of js/gameState.js: five switches, one of
    them a bomb, players taking turns pressing switches.  The module-level
    signals of the source become the fields of one immutable `GameState`;
    each exported function becomes a pure transition. */
module GameEngine {
  import opened Wrappers

  /** Number of switches on the board. */
  const SwitchCount: nat := 5

  /** The turn list used before anybody joins a room. */
  const DefaultPlayers: seq<string> := ["Mario", "Luigi", "Yoshi", "Birdo"]

  const StartMessage: string := "Press Start to begin!"

  datatype GameState = GameState(
    currentPlayer: nat,
    gameOver: bool,
    winner: Option<string>,
    loser: Option<string>,
    bombIndex: int,
    switchStates: seq<bool>,
    players: seq<string>,
    gameStarted: bool,
    message: string,
    bombHit: bool)

  // ---------------------------------------------------------------------
  // Messages shown to the players
  // ---------------------------------------------------------------------

  function TurnMessage(name: string): string {
    name + "'s turn - Pick a switch (1-5)"
  }

  function BoomMessage(name: string): string {
    "\U{1F4A5} BOOM! " + name + " hit the bomb and lost!"
  }

  function WinMessage(name: string): string {
    "\U{1F389} " + name + " wins! All safe switches pressed!"
  }

  function SafeMessage(name: string): string {
    "Safe! " + TurnMessage(name)
  }

  // ---------------------------------------------------------------------
  // Counting switches
  // ---------------------------------------------------------------------

  /** Number of pressed switches (the `filter(state => state).length` view). */
  function CountPressed(sw: seq<bool>): (n: nat)
    ensures n <= |sw|
    ensures n == 0 <==> forall j :: 0 <= j < |sw| ==> !sw[j]
  {
    if |sw| == 0 then 0
    else CountPressed(sw[..|sw| - 1]) + (if sw[|sw| - 1] then 1 else 0)
  }

  /** Number of switches that are neither pressed nor the bomb. */
  function RemainingSafe(sw: seq<bool>, bomb: int): (n: nat)
    ensures n <= |sw|
  {
    if |sw| == 0 then 0
    else RemainingSafe(sw[..|sw| - 1], bomb)
         + (if !sw[|sw| - 1] && |sw| - 1 != bomb then 1 else 0)
  }

  /** Every switch other than the bomb has been pressed. */
  predicate AllSafePressed(sw: seq<bool>, bomb: int) {
    forall j :: 0 <= j < |sw| && j != bomb ==> sw[j]
  }

  /** The win test of the source (no remaining safe switch) is exactly
      "every non-bomb switch is pressed". */
  lemma {:induction false} RemainingZeroIff(sw: seq<bool>, bomb: int)
    ensures RemainingSafe(sw, bomb) == 0 <==> AllSafePressed(sw, bomb)
  {
    if |sw| > 0 {
      var init := sw[..|sw| - 1];
      RemainingZeroIff(init, bomb);
      assert forall j :: 0 <= j < |init| ==> init[j] == sw[j];
    }
  }

  /** Pressing one unpressed switch raises the pressed count by exactly one. */
  lemma {:induction false} CountPressedUpdate(sw: seq<bool>, i: int)
    requires 0 <= i < |sw| && !sw[i]
    ensures CountPressed(sw[i := true]) == CountPressed(sw) + 1
  {
    var sw' := sw[i := true];
    if i == |sw| - 1 {
      assert sw'[..|sw'| - 1] == sw[..|sw| - 1];
    } else {
      assert sw'[..|sw'| - 1] == sw[..|sw| - 1][i := true];
      CountPressedUpdate(sw[..|sw| - 1], i);
    }
  }

  /** With the bomb on the board, every switch is pressed, safe-and-unpressed,
      or the unpressed bomb. */
  lemma {:induction false} Partition(sw: seq<bool>, bomb: int)
    requires 0 <= bomb < |sw|
    ensures CountPressed(sw) + RemainingSafe(sw, bomb) + (if sw[bomb] then 0 else 1) == |sw|
  {
    var init := sw[..|sw| - 1];
    if bomb < |sw| - 1 {
      Partition(init, bomb);
    } else {
      PartitionNoBomb(init, bomb);
    }
  }

  lemma {:induction false} PartitionNoBomb(sw: seq<bool>, bomb: int)
    requires bomb >= |sw|
    ensures CountPressed(sw) + RemainingSafe(sw, bomb) == |sw|
  {
    if |sw| > 0 {
      PartitionNoBomb(sw[..|sw| - 1], bomb);
    }
  }

  // ---------------------------------------------------------------------
  // Derived views
  // ---------------------------------------------------------------------

  /** The name of the player whose turn it is; the index is taken modulo the
      length of the turn list, so it is always one of the listed players. */
  function CurrentPlayerName(s: GameState): (name: string)
    requires |s.players| > 0
    ensures name in s.players
    ensures s.currentPlayer < |s.players| ==> name == s.players[s.currentPlayer]
  {
    s.players[s.currentPlayer % |s.players|]
  }

  /** The `pressedSwitchCount` view. */
  function PressedSwitchCount(s: GameState): (n: nat)
    ensures n <= |s.switchStates|
  {
    CountPressed(s.switchStates)
  }

  // ---------------------------------------------------------------------
  // Invariant of a round
  // ---------------------------------------------------------------------

  /** What the engine keeps true of its own state: five switches, the bomb on
      the board, a non-empty turn list (any non-empty list: the `players`
      handler of the multiplayer layer may replace it at any time); while the round runs the bomb is
      unpressed and a safe switch is left; a winner means every safe switch
      and not the bomb was pressed; a loser means the bomb was pressed. */
  predicate Valid(s: GameState) {
    && |s.switchStates| == SwitchCount
    && 0 <= s.bombIndex < SwitchCount
    && |s.players| > 0
    && (!s.gameStarted ==> !s.gameOver && CountPressed(s.switchStates) == 0)
    && (!s.gameOver ==> !s.switchStates[s.bombIndex]
                        && RemainingSafe(s.switchStates, s.bombIndex) > 0
                        && s.winner.None? && s.loser.None?)
    && (s.gameOver ==> s.winner.Some? != s.loser.Some?)
    && (s.winner.Some? ==> s.gameOver
                           && AllSafePressed(s.switchStates, s.bombIndex)
                           && !s.switchStates[s.bombIndex])
    && (s.loser.Some? ==> s.gameOver
                          && s.switchStates[s.bombIndex])
  }

  /** The module-load state: nobody has pressed Start yet.  `bomb` stands for
      `Math.floor(Math.random() * 5)`. */
  function Initial(bomb: int): (s: GameState)
    requires 0 <= bomb < SwitchCount
    ensures Valid(s)
    ensures !s.gameStarted && s.players == DefaultPlayers && s.currentPlayer == 0
    ensures s.bombIndex == bomb && s.message == StartMessage && !s.bombHit
    ensures !s.gameOver && s.winner.None? && s.loser.None?
    ensures PressedSwitchCount(s) == 0 && |s.switchStates| == SwitchCount
  {
    var s := GameState(0, false, None, None, bomb, [false, false, false, false, false],
                       DefaultPlayers, false, StartMessage, false);
    assert RemainingSafe(s.switchStates, bomb) == 4 by {
      Partition(s.switchStates, bomb);
    }
    s
  }

  // ---------------------------------------------------------------------
  // Operations
  // ---------------------------------------------------------------------

  /** `resetGame`: a fresh round with the bomb at `bomb` (the source draws it
      with `Math.random`), turn back to the first player, the turn list kept. */
  function ResetGame(s: GameState, bomb: int): (r: GameState)
    requires 0 <= bomb < SwitchCount
    requires |s.players| > 0
    ensures Valid(r)
    ensures r.currentPlayer == 0 && !r.gameOver && r.winner.None? && r.loser.None?
    ensures r.bombIndex == bomb && 0 <= r.bombIndex < SwitchCount
    ensures |r.switchStates| == SwitchCount && PressedSwitchCount(r) == 0
    ensures r.gameStarted && !r.bombHit
    ensures r.players == s.players
    ensures r.message == TurnMessage(s.players[0])
  {
    var sw := [false, false, false, false, false];
    assert RemainingSafe(sw, bomb) == 4 by {
      Partition(sw, bomb);
    }
    s.(currentPlayer := 0, gameOver := false, winner := None, loser := None,
       bombIndex := bomb, switchStates := sw, gameStarted := true,
       bombHit := false, message := TurnMessage(s.players[0]))
  }

  /** A press the engine takes: the round is running and the switch is up. */
  predicate Accepts(s: GameState, index: int)
    requires 0 <= index < |s.switchStates|
  {
    !s.gameOver && s.gameStarted && !s.switchStates[index]
  }

  /** The fields a press never touches. */
  predicate SameRound(s: GameState, t: GameState) {
    t.players == s.players && t.bombIndex == s.bombIndex && t.gameStarted == s.gameStarted
  }

  /** `pressSwitch(index)`: the new state and the returned flag, which is true
      only when the bomb went off. */
  function PressSwitch(s: GameState, index: int): (r: (GameState, bool))
    requires |s.players| > 0
    requires 0 <= index < |s.switchStates|
    // refused: nothing changes
    ensures !Accepts(s, index) ==> r == (s, false)
    // accepted: exactly this switch goes down, the round's fixed fields stay
    ensures Accepts(s, index) ==>
              && r.0.switchStates == s.switchStates[index := true]
              && SameRound(s, r.0)
    // the bomb: loss by the current player, turn not advanced
    ensures Accepts(s, index) && index == s.bombIndex ==>
              && r.1
              && r.0.gameOver && r.0.bombHit
              && r.0.loser == Some(CurrentPlayerName(s)) && r.0.winner == s.winner
              && r.0.currentPlayer == s.currentPlayer
              && r.0.message == BoomMessage(CurrentPlayerName(s))
    // the last safe switch: win by the current player, turn not advanced
    ensures Accepts(s, index) && index != s.bombIndex
            && AllSafePressed(s.switchStates[index := true], s.bombIndex) ==>
              && !r.1
              && r.0.gameOver && r.0.bombHit == s.bombHit
              && r.0.winner == Some(CurrentPlayerName(s)) && r.0.loser == s.loser
              && r.0.currentPlayer == s.currentPlayer
              && r.0.message == WinMessage(CurrentPlayerName(s))
    // any other safe switch: the turn passes to the next player
    ensures Accepts(s, index) && index != s.bombIndex
            && !AllSafePressed(s.switchStates[index := true], s.bombIndex) ==>
              && !r.1
              && !r.0.gameOver && r.0.bombHit == s.bombHit
              && r.0.winner == s.winner && r.0.loser == s.loser
              && r.0.currentPlayer == (s.currentPlayer + 1) % |s.players|
              && r.0.message == SafeMessage(CurrentPlayerName(r.0))
  {
    if s.gameOver || !s.gameStarted then (s, false)
    else if s.switchStates[index] then (s, false)
    else
      var sw := s.switchStates[index := true];
      var name := CurrentPlayerName(s);
      if index == s.bombIndex then
        (s.(switchStates := sw, gameOver := true, loser := Some(name),
            message := BoomMessage(name), bombHit := true), true)
      else
        RemainingZeroIff(sw, s.bombIndex);
        if RemainingSafe(sw, s.bombIndex) == 0 then
          (s.(switchStates := sw, gameOver := true, winner := Some(name),
              message := WinMessage(name)), false)
        else
          var next := (s.currentPlayer + 1) % |s.players|;
          (s.(switchStates := sw, currentPlayer := next,
              message := SafeMessage(s.players[next])), false)
  }

  // ---------------------------------------------------------------------
  // Properties relating several calls
  // ---------------------------------------------------------------------

  /** An accepted press is counted exactly once by `pressedSwitchCount`;
      a refused one not at all. */
  lemma PressCountsOnce(s: GameState, index: int)
    requires |s.players| > 0
    requires 0 <= index < |s.switchStates|
    ensures Accepts(s, index) ==>
              PressedSwitchCount(PressSwitch(s, index).0) == PressedSwitchCount(s) + 1
    ensures !Accepts(s, index) ==>
              PressedSwitchCount(PressSwitch(s, index).0) == PressedSwitchCount(s)
  {
    if Accepts(s, index) {
      CountPressedUpdate(s.switchStates, index);
    }
  }

  /** Pressing the same switch twice in a row: the second press is refused
      and changes nothing. */
  lemma PressTwiceIsRefused(s: GameState, index: int)
    requires |s.players| > 0
    requires 0 <= index < |s.switchStates|
    ensures var t := PressSwitch(s, index).0;
            PressSwitch(t, index) == (t, false)
  {
  }

  /** Every press keeps the round invariant. */
  lemma PressPreservesValid(s: GameState, index: int)
    requires Valid(s)
    requires 0 <= index < |s.switchStates|
    ensures Valid(PressSwitch(s, index).0)
  {
  }

  /** While a round is running at most three switches are down, so a round
      takes at most four accepted presses. */
  lemma RunningRoundBound(s: GameState)
    requires Valid(s) && !s.gameOver
    ensures PressedSwitchCount(s) <= 3
  {
    Partition(s.switchStates, s.bombIndex);
  }

  /** A won round never had its bomb pressed, and a lost round had it pressed:
      the outcome is decided by the bomb switch alone. */
  lemma OutcomeMatchesBomb(s: GameState)
    requires Valid(s) && s.gameOver
    ensures s.winner.Some? <==> !s.switchStates[s.bombIndex]
    ensures s.loser.Some? <==> s.switchStates[s.bombIndex]
  {
  }

  /** Applying a sequence of presses in order. */
  function Play(s: GameState, presses: seq<int>): (r: GameState)
    requires |s.players| > 0
    requires forall k :: 0 <= k < |presses| ==> 0 <= presses[k] < |s.switchStates|
    ensures r.players == s.players && |r.switchStates| == |s.switchStates|
    decreases |presses|
  {
    if |presses| == 0 then s
    else Play(PressSwitch(s, presses[0]).0, presses[1..])
  }

  /** Any sequence of presses keeps the round invariant. */
  lemma {:induction false} PlayPreservesValid(s: GameState, presses: seq<int>)
    requires Valid(s)
    requires forall k :: 0 <= k < |presses| ==> 0 <= presses[k] < |s.switchStates|
    ensures Valid(Play(s, presses))
    decreases |presses|
  {
    if |presses| > 0 {
      PressPreservesValid(s, presses[0]);
      PlayPreservesValid(PressSwitch(s, presses[0]).0, presses[1..]);
    }
  }

  /** Once a round is over, no sequence of presses changes anything until the
      next reset. */
  lemma {:induction false} OverIsFinal(s: GameState, presses: seq<int>)
    requires |s.players| > 0 && s.gameOver
    requires forall k :: 0 <= k < |presses| ==> 0 <= presses[k] < |s.switchStates|
    ensures Play(s, presses) == s
    decreases |presses|
  {
    if |presses| > 0 {
      OverIsFinal(s, presses[1..]);
    }
  }
}

=== FILE: local_store.dfy ===
/** The in-memory room store of js/localMultiplayer.js (`LocalStore`): a map
    from room code to a tree of JavaScript values, writes to dotted paths,
    and per-room listeners notified by a string-prefix rule.  The mutable
    `Map`s of the class become the immutable `Store`; callbacks are opaque
    identifiers, and invoking one is reported as a `Notification`. */
module LocalStore {
  import opened Wrappers

  /** The JavaScript values a room can hold.  `Obj` is a plain object. */
  datatype Value =
    | Undefined
    | Null
    | Bool(b: bool)
    | Num(n: int)
    | Str(s: string)
    | Obj(fields: map<string, Value>)

  /** A room is the field map of its top-level object. */
  type Room = map<string, Value>

  /** A registered `{path, callback}` pair. */
  datatype Listener = Listener(path: string, callback: nat)

  /** One invocation `callback(data)`. */
  datatype Notification = Notification(callback: nat, data: Value)

  datatype Store = Store(rooms: map<string, Room>, listeners: map<string, seq<Listener>>)

  /** JavaScript truthiness. */
  predicate Truthy(v: Value) {
    match v
    case Undefined => false
    case Null => false
    case Bool(b) => b
    case Num(n) => n != 0
    case Str(s) => s != ""
    case Obj(_) => true
  }

  /** `v?.[key]`: the field of an object, `undefined` otherwise. */
  function Prop(v: Value, key: string): (r: Value)
    ensures !v.Obj? ==> r == Undefined
    ensures v.Obj? && key !in v.fields ==> r == Undefined
  {
    if v.Obj? && key in v.fields then v.fields[key] else Undefined
  }

  /** The room `getRoom` creates on first use. */
  const EmptyRoom: Room :=
    map["gameState" := Obj(map[]),
        "players" := Obj(map[]),
        "requests" := Obj(map["reset" := Null, "press" := Null])]

  const EmptyStore: Store := Store(map[], map[])

  // ---------------------------------------------------------------------
  // Dotted paths
  // ---------------------------------------------------------------------

  /** `path.split('.')`. */
  function Split(path: string): (parts: seq<string>)
    ensures |parts| >= 1
    ensures forall i :: 0 <= i < |parts| ==> '.' !in parts[i]
  {
    if |path| == 0 then [""]
    else
      var rest := Split(path[1..]);
      if path[0] == '.' then [""] + rest
      else [[path[0]] + rest[0]] + rest[1..]
  }

  /** `parts.join('.')`. */
  function JoinDots(parts: seq<string>): string
    requires |parts| >= 1
  {
    if |parts| == 1 then parts[0] else parts[0] + "." + JoinDots(parts[1..])
  }

  /** Splitting loses nothing: joining the parts gives the path back. */
  lemma {:induction false} SplitJoin(path: string)
    ensures JoinDots(Split(path)) == path
  {
    if |path| > 0 {
      var rest := Split(path[1..]);
      SplitJoin(path[1..]);
      if path[0] == '.' {
        assert path == [path[0]] + path[1..];
      } else {
        JoinDotsHead(rest, [path[0]]);
        assert path == [path[0]] + path[1..];
      }
    }
  }

  lemma {:induction false} JoinDotsHead(parts: seq<string>, pre: string)
    requires |parts| >= 1
    ensures JoinDots([pre + parts[0]] + parts[1..]) == pre + JoinDots(parts)
  {
    var q := [pre + parts[0]] + parts[1..];
    assert q[0] == pre + parts[0];
    if |parts| > 1 {
      assert q[1..] == parts[1..];
      var tail := JoinDots(parts[1..]);
      assert JoinDots(q) == (pre + parts[0]) + "." + tail;
      assert JoinDots(parts) == parts[0] + "." + tail;
      assert (pre + parts[0]) + "." + tail == pre + (parts[0] + "." + tail);
    }
  }

  /** Dot-free segments come back from the joined path unchanged. */
  lemma {:induction false} JoinSplit(parts: seq<string>)
    requires |parts| >= 1
    requires forall i :: 0 <= i < |parts| ==> '.' !in parts[i]
    ensures Split(JoinDots(parts)) == parts
    decreases parts, 1
  {
    if |parts| == 1 {
      SplitSegment(parts[0]);
    } else {
      var tail := JoinDots(parts[1..]);
      JoinSplit(parts[1..]);
      SplitPrefixed(parts[0], tail);
      assert [""] + Split(tail) == [""] + parts[1..];
    }
  }

  /** A dot-free string is one segment. */
  lemma {:induction false} SplitSegment(seg: string)
    requires '.' !in seg
    ensures Split(seg) == [seg]
    decreases |seg|
  {
    if |seg| > 0 {
      assert '.' !in seg[1..] by {
        forall k | 0 <= k < |seg[1..]| ensures seg[1..][k] != '.' {
          assert seg[1..][k] == seg[k + 1];
        }
      }
      SplitSegment(seg[1..]);
      assert [seg[0]] + seg[1..] == seg;
    }
  }

  /** Splitting `seg + "." + tail` for a dot-free `seg`. */
  lemma {:induction false} SplitPrefixed(seg: string, tail: string)
    requires '.' !in seg
    ensures Split(seg + "." + tail) == [seg] + Split(tail)
    decreases |seg|
  {
    var p := seg + "." + tail;
    if |seg| == 0 {
      assert p == "." + tail;
      assert p[1..] == tail;
    } else {
      assert p[1..] == seg[1..] + "." + tail;
      assert '.' !in seg[1..] by {
        forall k | 0 <= k < |seg[1..]| ensures seg[1..][k] != '.' {
          assert seg[1..][k] == seg[k + 1];
        }
      }
      SplitPrefixed(seg[1..], tail);
      assert [seg[0]] + seg[1..] == seg;
    }
  }

  /** `s.startsWith(prefix)`. */
  predicate StartsWith(s: string, prefix: string) {
    |prefix| <= |s| && s[..|prefix|] == prefix
  }

  // ---------------------------------------------------------------------
  // Rooms
  // ---------------------------------------------------------------------

  /** `getRoom(code)`: the room, created empty on first use. */
  function GetRoom(st: Store, code: string): (r: (Store, Room))
    ensures code in st.rooms ==> r == (st, st.rooms[code])
    ensures code !in st.rooms ==>
              && r.1 == EmptyRoom
              && r.0 == st.(rooms := st.rooms[code := EmptyRoom])
    ensures code in r.0.rooms && r.0.rooms[code] == r.1
  {
    if code in st.rooms then (st, st.rooms[code])
    else (st.(rooms := st.rooms[code := EmptyRoom]), EmptyRoom)
  }

  /** A second `getRoom` returns the room the first one gave, and changes
      nothing. */
  lemma GetRoomStable(st: Store, code: string)
    ensures var (st1, room) := GetRoom(st, code);
            GetRoom(st1, code) == (st1, room)
  {
  }

  /** The lookup `subscribe` does: follow the parts, stopping at the first
      falsy value. */
  function Resolve(v: Value, parts: seq<string>): (r: Value)
    ensures |parts| > 0 && !v.Obj? ==> r == Undefined
    ensures |parts| > 0 && v == Obj(map[]) ==> r == Undefined
    decreases |parts|
  {
    if |parts| == 0 then v
    else
      var next := Prop(v, parts[0]);
      if !Truthy(next) then next else Resolve(next, parts[1..])
  }

  /** Looking up `a + b` is looking up `a`, then `b` from what was found,
      unless the walk already stopped at a falsy value. */
  lemma {:induction false} ResolveAppend(v: Value, a: seq<string>, b: seq<string>)
    requires |a| > 0
    ensures var mid := Resolve(v, a);
            Resolve(v, a + b) == if Truthy(mid) then Resolve(mid, b) else mid
    decreases |a|
  {
    assert (a + b)[0] == a[0];
    assert (a + b)[1..] == a[1..] + b;
    var next := Prop(v, a[0]);
    if Truthy(next) && |a| > 1 {
      ResolveAppend(next, a[1..], b);
    } else if Truthy(next) {
      assert a[1..] + b == b;
    }
  }

  /** The object a write to `parts` builds under a missing node. */
  function Chain(parts: seq<string>, data: Value): (v: Value)
    requires |parts| >= 1
    ensures v.Obj? && v.fields.Keys == {parts[0]}
    decreases |parts|
  {
    if |parts| == 1 then Obj(map[parts[0] := data])
    else Obj(map[parts[0] := Chain(parts[1..], data)])
  }

  /** The walk of `updateRoom` from `node`: each intermediate that is falsy is
      replaced by `{}`, an object is entered, and assigning through any other
      value throws (ES modules run in strict mode), which is `None`.  The
      last part is assigned `data`. */
  function SetPath(node: Room, parts: seq<string>, data: Value): (r: Option<Room>)
    requires |parts| >= 1
    ensures r.Some? ==> r.value.Keys == node.Keys + {parts[0]}
    ensures r.Some? ==> forall k :: k in node && k != parts[0] ==> r.value[k] == node[k]
    decreases |parts|
  {
    if |parts| == 1 then Some(node[parts[0] := data])
    else
      var child := Prop(Obj(node), parts[0]);
      if !Truthy(child) then
        match SetPath(map[], parts[1..], data)
        case Some(sub) => Some(node[parts[0] := Obj(sub)])
        case None => None
      else if child.Obj? then
        match SetPath(child.fields, parts[1..], data)
        case Some(sub) => Some(node[parts[0] := Obj(sub)])
        case None => None
      else None
  }

  /** The walk throws exactly when it meets a truthy value that is not an
      object before the last part. */
  predicate Blocked(node: Room, parts: seq<string>)
    requires |parts| >= 1
    decreases |parts|
  {
    |parts| > 1 &&
    var child := Prop(Obj(node), parts[0]);
    Truthy(child) && (!child.Obj? || Blocked(child.fields, parts[1..]))
  }

  lemma {:induction false} SetPathFailsIffBlocked(node: Room, parts: seq<string>, data: Value)
    requires |parts| >= 1
    ensures SetPath(node, parts, data).None? <==> Blocked(node, parts)
    decreases |parts|
  {
    if |parts| > 1 {
      var child := Prop(Obj(node), parts[0]);
      if !Truthy(child) {
        SetPathFresh(parts[1..], data);
      } else if child.Obj? {
        SetPathFailsIffBlocked(child.fields, parts[1..], data);
      }
    }
  }

  /** Under a missing node the write always succeeds and builds a chain of
      one-key objects ending in `data`. */
  lemma {:induction false} SetPathFresh(parts: seq<string>, data: Value)
    requires |parts| >= 1
    ensures SetPath(map[], parts, data) == Some(Chain(parts, data).fields)
    decreases |parts|
  {
    if |parts| > 1 {
      SetPathFresh(parts[1..], data);
    }
  }

  /** After a write, the lookup `subscribe` does along the same parts finds
      exactly `data`. */
  lemma {:induction false} SetThenResolve(node: Room, parts: seq<string>, data: Value)
    requires |parts| >= 1
    requires SetPath(node, parts, data).Some?
    ensures Resolve(Obj(SetPath(node, parts, data).value), parts) == data
    decreases |parts|
  {
    var r := SetPath(node, parts, data).value;
    if |parts| > 1 {
      var child := Prop(Obj(node), parts[0]);
      var sub := if !Truthy(child) then map[] else child.fields;
      SetThenResolve(sub, parts[1..], data);
      assert Prop(Obj(r), parts[0]) == Obj(SetPath(sub, parts[1..], data).value);
    }
  }

  /** `q` leaves the written path somewhere before either ends. */
  predicate Diverges(q: seq<string>, parts: seq<string>)
    decreases |q|
  {
    |q| > 0 && |parts| > 0 && (q[0] != parts[0] || Diverges(q[1..], parts[1..]))
  }

  /** Keys off the written path are untouched: a lookup along a diverging
      path finds the same truthy value as before, and a falsy one only when it
      found a falsy one before. */
  lemma {:induction false} SetPathOffPath(node: Room, parts: seq<string>, data: Value, q: seq<string>)
    requires |parts| >= 1
    requires SetPath(node, parts, data).Some?
    requires Diverges(q, parts)
    ensures var after := Resolve(Obj(SetPath(node, parts, data).value), q);
            var before := Resolve(Obj(node), q);
            && (Truthy(before) ==> after == before)
            && (Truthy(after) ==> after == before)
    decreases |parts|
  {
    var r := SetPath(node, parts, data).value;
    if q[0] != parts[0] {
      assert Prop(Obj(r), q[0]) == Prop(Obj(node), q[0]);
    } else {
      assert |parts| > 1;
      var child := Prop(Obj(node), parts[0]);
      var sub := if !Truthy(child) then map[] else child.fields;
      var subR := SetPath(sub, parts[1..], data).value;
      assert Prop(Obj(r), q[0]) == Obj(subR);
      SetPathOffPath(sub, parts[1..], data, q[1..]);
      if !Truthy(child) {
        ResolveEmpty(q[1..]);
      }
    }
  }

  /** Nothing truthy is found below an empty object. */
  lemma ResolveEmpty(q: seq<string>)
    requires |q| > 0
    ensures !Truthy(Resolve(Obj(map[]), q))
  {
  }

  // ---------------------------------------------------------------------
  // Updates and subscriptions
  // ---------------------------------------------------------------------

  /** The listener test of `updateRoom`: same path, or the listener's path
      starts with the written path. */
  predicate Matches(listenerPath: string, path: string)
    ensures Matches(listenerPath, path) <==> StartsWith(listenerPath, path)
    ensures Matches(listenerPath, path) ==> |path| <= |listenerPath|
  {
    listenerPath == path || StartsWith(listenerPath, path)
  }

  /** The callbacks `updateRoom` invokes, in registration order. */
  function Notify(ls: seq<Listener>, path: string, data: Value): (ns: seq<Notification>)
    ensures |ns| <= |ls|
    ensures forall n :: n in ns ==> n.data == data
  {
    if |ls| == 0 then []
    else (if Matches(ls[0].path, path) then [Notification(ls[0].callback, data)] else [])
         + Notify(ls[1..], path, data)
  }

  /** Listeners are visited in list order, each at most once: the invocations
      for a concatenated list are those for each part, in turn. */
  lemma {:induction false} NotifyAppend(a: seq<Listener>, b: seq<Listener>, path: string, data: Value)
    ensures Notify(a + b, path, data) == Notify(a, path, data) + Notify(b, path, data)
    decreases |a|
  {
    if |a| > 0 {
      assert (a + b)[0] == a[0];
      assert (a + b)[1..] == a[1..] + b;
      NotifyAppend(a[1..], b, path, data);
    } else {
      assert a + b == b;
    }
  }

  /** One listener yields one invocation when its path starts with the
      written path, and none otherwise. */
  lemma NotifySingle(l: Listener, path: string, data: Value)
    ensures Notify([l], path, data) == if StartsWith(l.path, path) then [Notification(l.callback, data)] else []
  {
  }

  /** A callback is invoked exactly when one of its listeners has a path
      starting with the written path; the equality test adds nothing to the
      prefix test. */
  lemma NotifyMembership(ls: seq<Listener>, path: string, data: Value, cb: nat)
    ensures Notification(cb, data) in Notify(ls, path, data) <==>
            exists m :: m in ls && m.callback == cb && StartsWith(m.path, path)
  {
  }

  lemma {:induction false} NotifyComplete(ls: seq<Listener>, path: string, data: Value, l: Listener)
    requires l in ls && StartsWith(l.path, path)
    ensures Notification(l.callback, data) in Notify(ls, path, data)
  {
    if ls[0] != l {
      NotifyComplete(ls[1..], path, data, l);
    }
  }

  /** Every invocation comes from a listener whose path starts with the
      written path. */
  lemma {:induction false} NotifySound(ls: seq<Listener>, path: string, data: Value, cb: nat)
    ensures Notification(cb, data) in Notify(ls, path, data) ==>
            exists m :: m in ls && m.callback == cb && StartsWith(m.path, path)
  {
    if |ls| > 0 {
      NotifySound(ls[1..], path, data, cb);
      if Notification(cb, data) in Notify(ls[1..], path, data) {
        var m :| m in ls[1..] && m.callback == cb && StartsWith(m.path, path);
        assert m in ls;
      }
    }
  }

  /** The listeners of one room (`this.listeners.get(code) || []`). */
  function RoomListeners(st: Store, code: string): seq<Listener> {
    if code in st.listeners then st.listeners[code] else []
  }

  /** The outcome of `updateRoom`: the store afterwards, the invocations, and
      whether the write threw before anything was notified. */
  datatype Updated = Updated(store: Store, notified: seq<Notification>, threw: bool)

  /** `updateRoom(code, path, data)`. */
  function UpdateRoom(st: Store, code: string, path: string, data: Value): (u: Updated)
    ensures code in u.store.rooms
    ensures u.store.listeners == st.listeners
    // other rooms are untouched
    ensures forall c :: c in st.rooms && c != code ==> c in u.store.rooms && u.store.rooms[c] == st.rooms[c]
    ensures u.store.rooms.Keys == st.rooms.Keys + {code}
    // a throw creates the room at most, and notifies nobody
    ensures u.threw <==> Blocked(GetRoom(st, code).1, Split(path))
    ensures u.threw ==> u.store == GetRoom(st, code).0 && u.notified == []
    // otherwise the path now holds `data`
    ensures !u.threw ==> Resolve(Obj(u.store.rooms[code]), Split(path)) == data
    // ... the room is the walk's result, so keys off the first part keep their values
    ensures !u.threw ==> SetPath(GetRoom(st, code).1, Split(path), data) == Some(u.store.rooms[code])
    ensures !u.threw ==> var before := GetRoom(st, code).1;
              && u.store.rooms[code].Keys == before.Keys + {Split(path)[0]}
              && forall k :: k in before && k != Split(path)[0] ==> u.store.rooms[code][k] == before[k]
    // invocations: every one for `data`, every one from a matching listener of this room
    ensures forall n :: n in u.notified ==> n.data == data
    ensures forall n :: n in u.notified ==>
              exists l :: l in RoomListeners(st, code) && l.callback == n.callback && StartsWith(l.path, path)
    ensures !u.threw ==> forall l :: l in RoomListeners(st, code) && StartsWith(l.path, path) ==>
              Notification(l.callback, data) in u.notified
    // ... once per matching listener, in list order (see NotifyAppend and NotifySingle)
    ensures !u.threw ==> u.notified == Notify(RoomListeners(st, code), path, data)
  {
    var (st1, room) := GetRoom(st, code);
    var parts := Split(path);
    SetPathFailsIffBlocked(room, parts, data);
    match SetPath(room, parts, data)
    case None => Updated(st1, [], true)
    case Some(room') =>
      SetThenResolve(room, parts, data);
      var ls := RoomListeners(st, code);
      var ns := Notify(ls, path, data);
      forall n | n in ns
        ensures exists l :: l in ls && l.callback == n.callback && StartsWith(l.path, path)
      {
        NotifySound(ls, path, data, n.callback);
      }
      forall l | l in ls && StartsWith(l.path, path)
        ensures Notification(l.callback, data) in ns
      {
        NotifyComplete(ls, path, data, l);
      }
      Updated(st1.(rooms := st1.rooms[code := room']), ns, false)
  }

  /** A write leaves every lookup along a diverging path as it was: a truthy
      value found before is found after, and nothing new appears there. */
  lemma UpdateRoomOffPath(st: Store, code: string, path: string, data: Value, q: seq<string>)
    requires !UpdateRoom(st, code, path, data).threw
    requires Diverges(q, Split(path))
    ensures var after := Resolve(Obj(UpdateRoom(st, code, path, data).store.rooms[code]), q);
            var before := Resolve(Obj(GetRoom(st, code).1), q);
            && (Truthy(before) ==> after == before)
            && (Truthy(after) ==> after == before)
  {
    SetPathOffPath(GetRoom(st, code).1, Split(path), data, q);
  }

  /** The outcome of `subscribe`: the store afterwards and the value the
      callback was invoked with right away, if any. */
  datatype Subscribed = Subscribed(store: Store, immediate: Option<Value>)

  /** `subscribe(code, path, callback)`. */
  function Subscribe(st: Store, code: string, path: string, callback: nat): (s: Subscribed)
    // the listener is appended to this room's list, other lists untouched
    ensures code in s.store.listeners
    ensures s.store.listeners[code] == RoomListeners(st, code) + [Listener(path, callback)]
    ensures forall c :: c in st.listeners && c != code ==>
              c in s.store.listeners && s.store.listeners[c] == st.listeners[c]
    // no list appears under any other room
    ensures s.store.listeners.Keys == st.listeners.Keys + {code}
    ensures s.store.rooms == GetRoom(st, code).0.rooms
    // invoked at once exactly when the path resolves to a truthy value
    ensures s.immediate.Some? <==> Truthy(Resolve(Obj(GetRoom(st, code).1), Split(path)))
    ensures s.immediate.Some? ==> s.immediate.value == Resolve(Obj(GetRoom(st, code).1), Split(path))
  {
    var ls := st.listeners[code := RoomListeners(st, code) + [Listener(path, callback)]];
    var (st1, room) := GetRoom(st.(listeners := ls), code);
    var v := Resolve(Obj(room), Split(path));
    Subscribed(st1, if Truthy(v) then Some(v) else None)
  }

  // ---------------------------------------------------------------------
  // Properties relating several calls
  // ---------------------------------------------------------------------

  /** A successful write of a truthy value is what a later `subscribe` on the
      same path hands its callback. */
  lemma UpdateThenSubscribe(st: Store, code: string, path: string, data: Value, cb: nat)
    requires !UpdateRoom(st, code, path, data).threw
    requires Truthy(data)
    ensures Subscribe(UpdateRoom(st, code, path, data).store, code, path, cb).immediate == Some(data)
  {
  }

  /** A write never notifies a listener on a strictly shorter path, so a
      write to an ancestor's child is not seen by the ancestor. */
  lemma LongerPathSkipsAncestor(path: string, listenerPath: string)
    requires |listenerPath| < |path|
    ensures !Matches(listenerPath, path)
  {
  }

  /** Writing `requests.reset` does not notify a listener on `requests`, but
      does notify one on `requests.reset.x`. */
  lemma RequestsExample()
    ensures !Matches("requests", "requests.reset")
    ensures Matches("requests.reset.x", "requests.reset")
  {
    assert "requests.reset.x"[..|"requests.reset"|] == "requests.reset";
  }

  /** The prefix test is on characters, not on path segments: a write to
      `game` notifies a listener on `gameState`. */
  lemma PrefixIsTextual()
    ensures Matches("gameState", "game")
  {
    assert "gameState"[..4] == "game";
  }

  lemma SplitThreeParts()
    ensures Split("requests.reset.x") == ["requests", "reset", "x"]
  {
    assert "requests.reset.x" == "requests" + "." + ("reset" + "." + "x");
    SplitPrefixed("requests", "reset" + "." + "x");
    SplitPrefixed("reset", "x");
    SplitSegment("x");
  }

  lemma SetBelowNullSlot(data: Value)
    ensures SetPath(EmptyRoom, ["requests", "reset", "x"], data)
         == Some(EmptyRoom["requests" := Obj(map["reset" := Obj(map["x" := data]), "press" := Null])])
  {
    var requests := map["reset" := Null, "press" := Null];
    assert Prop(Obj(EmptyRoom), "requests") == Obj(requests);
    assert Prop(Obj(requests), "reset") == Null;
    assert ["reset", "x"][1..] == ["x"];
    assert SetPath(requests, ["reset", "x"], data)
        == Some(requests["reset" := Obj(map["x" := data])]);
    assert ["requests", "reset", "x"][1..] == ["reset", "x"];
    assert requests["reset" := Obj(map["x" := data])]
        == map["reset" := Obj(map["x" := data]), "press" := Null];
  }

  /** Writing below the `null` request slot of a fresh room turns it into an
      object; the sibling slot keeps its `null`. */
  lemma NullSlotBecomesObject(code: string, data: Value)
    ensures var u := UpdateRoom(EmptyStore, code, "requests.reset.x", data);
            && !u.threw
            && u.store.rooms[code]["requests"] == Obj(map["reset" := Obj(map["x" := data]), "press" := Null])
  {
    SplitThreeParts();
    SetBelowNullSlot(data);
  }
}

=== FILE: multiplayer.dfy ===
/** The multiplayer decision logic of js/multiplayerState.js with the peer
    store taken out.  The process-wide signals become one `Session` record;
    every subscription handler and exported action becomes a pure function of
    the session.  What the source `put`s into the store is returned as a list
    of `Write`s instead of being sent, and `Date.now()` is the parameter
    `now`. */
module Multiplayer {
  import opened Wrappers
  import opened GameEngine

  /** How long, in milliseconds, a request record stays honourable. */
  const FreshnessWindow: int := 5000

  /** Prefix of the store node that holds one room. */
  const RoomPrefix: string := "switch-game-room-"

  /** The record a peer writes about itself under `players/<id>`. */
  datatype PlayerRecord = PlayerRecord(id: string, name: string, active: bool, joinedAt: int)

  /** The peer-local view: room signals plus the engine's state. */
  datatype Session = Session(
    roomCode: string,
    isHost: bool,
    isConnected: bool,
    playerName: string,
    roomPlayers: seq<PlayerRecord>,
    localPlayerId: string,
    game: GameState)

  /** A request a guest leaves for the host (`index` is absent on resets). */
  datatype Request = Request(from: string, index: Option<int>, timestamp: int)

  /** The snapshot the host writes under `gameState`. */
  datatype StateRecord = StateRecord(
    currentPlayer: nat,
    gameOver: bool,
    winner: Option<string>,
    loser: Option<string>,
    bombIndex: int,
    switchStates: seq<bool>,
    gameStarted: bool,
    message: string,
    timestamp: int)

  /** A `gameState` record as a subscriber receives it: each field may be
      missing (`undefined`).  `winner`/`loser` may be present and `null`,
      which is `Some(None)`. */
  datatype Incoming = Incoming(
    currentPlayer: Option<nat>,
    gameOver: Option<bool>,
    winner: Option<Option<string>>,
    loser: Option<Option<string>>,
    bombIndex: Option<int>,
    switchStates: Option<seq<bool>>,
    gameStarted: Option<bool>,
    message: Option<string>,
    timestamp: Option<int>)

  /** Where in a room a write goes. */
  datatype Key = PlayerKey(id: string) | GameStateKey | ResetRequestKey | PressRequestKey

  datatype Payload =
    | PlayerData(player: PlayerRecord)
    | StateData(state: StateRecord)
    | RequestData(request: Request)

  /** One `put` into the store: the room node, the key inside it, the value. */
  datatype Write = Write(node: string, key: Key, payload: Payload)

  // ---------------------------------------------------------------------
  // Room codes and names
  // ---------------------------------------------------------------------

  predicate IsLower(c: char) { 'a' <= c <= 'z' }

  function UpperChar(c: char): (u: char)
    ensures !IsLower(u)
    ensures !IsLower(c) ==> u == c
  {
    if IsLower(c) then (c as int - 'a' as int + 'A' as int) as char else c
  }

  /** `toUpperCase` on the ASCII letters: lower-case letters are raised,
      every other character is kept, the length never changes. */
  function Upper(s: string): (u: string)
    ensures |u| == |s|
    ensures forall i :: 0 <= i < |u| ==> !IsLower(u[i])
    ensures forall i :: 0 <= i < |s| && !IsLower(s[i]) ==> u[i] == s[i]
  {
    seq(|s|, i requires 0 <= i < |s| => UpperChar(s[i]))
  }

  /** Upper-casing an upper-cased code changes nothing, so the code
      `createRoom` returns is the code `joinRoom` stores. */
  lemma UpperIdempotent(s: string)
    ensures Upper(Upper(s)) == Upper(s)
  {
  }

  /** The characters of `Math.random().toString(36)`. */
  predicate IsBase36(s: string) {
    forall i :: 0 <= i < |s| ==> ('0' <= s[i] <= '9' || IsLower(s[i]))
  }

  /** Upper-cased base-36 text is upper-case alphanumeric. */
  lemma RoomCodeAlphabet(raw: string)
    requires IsBase36(raw)
    ensures forall i :: 0 <= i < |Upper(raw)| ==>
              ('0' <= Upper(raw)[i] <= '9' || 'A' <= Upper(raw)[i] <= 'Z')
  {
  }

  /** The store node of a room. */
  function RoomNode(code: string): (node: string)
    ensures |node| == |RoomPrefix| + |code|
    ensures node[|RoomPrefix|..] == code
  {
    RoomPrefix + code
  }

  /** Distinct codes name distinct rooms. */
  lemma RoomNodeInjective(a: string, b: string)
    requires RoomNode(a) == RoomNode(b)
    ensures a == b
  {
    assert a == RoomNode(a)[|RoomPrefix|..];
  }

  /** `substr(-4)`: the last four characters, or all of a shorter string. */
  function Last4(id: string): (t: string)
    ensures |t| == if |id| < 4 then |id| else 4
    ensures t == id[|id| - |t|..]
  {
    if |id| <= 4 then id else id[|id| - 4..]
  }

  /** The name a peer goes by: the typed name, or "Player " and the tail of
      its id when none was typed. */
  function DisplayName(s: Session): (name: string)
    ensures s.playerName != "" ==> name == s.playerName
    ensures s.playerName == "" ==> name == "Player " + Last4(s.localPlayerId)
    ensures name != ""
  {
    if s.playerName != "" then s.playerName else "Player " + Last4(s.localPlayerId)
  }

  function NotYourTurnMessage(name: string): string {
    "It's " + name + "'s turn!"
  }

  // ---------------------------------------------------------------------
  // Session lifecycle
  // ---------------------------------------------------------------------

  /** The module-load session: `id` stands for `generatePlayerId()` and
      `bomb` for the engine's initial random bomb. */
  function InitialSession(id: string, bomb: int): (s: Session)
    requires 0 <= bomb < SwitchCount
    ensures !s.isHost && !s.isConnected && s.roomCode == "" && s.playerName == ""
    ensures s.localPlayerId == id && s.roomPlayers == []
    ensures Valid(s.game)
    // the engine's module-load round
    ensures s.game == Initial(bomb)
  {
    Session("", false, false, "", [], id, Initial(bomb))
  }

  /** The record `joinRoom` writes for the local player. */
  function JoinRecord(s: Session, now: int): (p: PlayerRecord)
    ensures p.id == s.localPlayerId && p.name == DisplayName(s)
    ensures p.active && p.joinedAt == now
  {
    PlayerRecord(s.localPlayerId, DisplayName(s), true, now)
  }

  /** The outcome of `joinRoom`: the new session, the writes made right away,
      and the write registered for page unload. */
  datatype Joined = Joined(session: Session, writes: seq<Write>, onUnload: seq<Write>)

  /** `joinRoom(code)` at time `now`. */
  function JoinRoom(s: Session, code: string, now: int): (j: Joined)
    // an empty code is ignored
    ensures code == "" ==> j == Joined(s, [], [])
    // otherwise: upper-cased code, connected, nothing else in the session
    ensures code != "" ==>
              && j.session == s.(roomCode := Upper(code), isConnected := true)
              && j.session.roomCode != ""
              && |j.writes| == 1 && |j.onUnload| == 1
              && j.writes[0].node == RoomNode(Upper(code))
              && j.writes[0].key == PlayerKey(s.localPlayerId)
              && j.writes[0].payload == PlayerData(JoinRecord(s, now))
              // the unload write is the join write with `active` cleared
              && j.onUnload[0] == j.writes[0].(payload := PlayerData(JoinRecord(s, now).(active := false)))
  {
    if code == "" then Joined(s, [], [])
    else
      var room := Upper(code);
      var record := JoinRecord(s, now);
      Joined(s.(roomCode := room, isConnected := true),
             [Write(RoomNode(room), PlayerKey(s.localPlayerId), PlayerData(record))],
             [Write(RoomNode(room), PlayerKey(s.localPlayerId),
                    PlayerData(PlayerRecord(record.id, record.name, false, record.joinedAt)))])
  }

  /** `createRoom()`: `raw` stands for the six random base-36 characters.
      Returns the code and what joining it did. */
  function CreateRoom(s: Session, raw: string, now: int): (r: (string, Joined))
    ensures r.0 == Upper(raw)
    ensures r.1.session.isHost
    // a non-empty code is joined as it is returned; nothing else changes
    ensures r.0 != "" ==>
              && r.1.session == s.(roomCode := r.0, isHost := true, isConnected := true)
              && |r.1.writes| == 1 && |r.1.onUnload| == 1
              && r.1.writes[0] == Write(RoomNode(r.0), PlayerKey(s.localPlayerId),
                                        PlayerData(JoinRecord(s, now)))
              && r.1.onUnload[0] == Write(RoomNode(r.0), PlayerKey(s.localPlayerId),
                                          PlayerData(JoinRecord(s, now).(active := false)))
    // an empty code is stored, but the join is skipped
    ensures r.0 == "" ==> r.1.session == s.(roomCode := "", isHost := true) && r.1.writes == []
    ensures r.0 == "" ==> r.1 == Joined(s.(roomCode := "", isHost := true), [], [])
  {
    var code := Upper(raw);
    UpperIdempotent(raw);
    (code, JoinRoom(s.(roomCode := code, isHost := true), code, now))
  }

  // ---------------------------------------------------------------------
  // The `players` subscription
  // ---------------------------------------------------------------------

  /** `Object.values(data).filter(p => p && typeof p === 'object')`: the
      object entries, in store order.  `None` entries are `null` or
      non-object values. */
  function PresentPlayers(entries: seq<Option<PlayerRecord>>): (ps: seq<PlayerRecord>)
    ensures |ps| <= |entries|
    ensures forall p :: p in ps ==> Some(p) in entries
  {
    if |entries| == 0 then []
    else (match entries[0]
          case Some(p) => [p]
          case None => []) + PresentPlayers(entries[1..])
  }

  /** Names of the active players, in order. */
  function ActiveNames(ps: seq<PlayerRecord>): (names: seq<string>)
    ensures |names| <= |ps|
  {
    if |ps| == 0 then []
    else (if ps[0].active then [ps[0].name] else []) + ActiveNames(ps[1..])
  }

  /** Keeping the object entries respects concatenation, so it keeps their
      store order. */
  lemma {:induction false} PresentPlayersAppend(a: seq<Option<PlayerRecord>>, b: seq<Option<PlayerRecord>>)
    ensures PresentPlayers(a + b) == PresentPlayers(a) + PresentPlayers(b)
  {
    if |a| > 0 {
      assert (a + b)[1..] == a[1..] + b;
      PresentPlayersAppend(a[1..], b);
    } else {
      assert a + b == b;
    }
  }

  /** Every object entry is kept. */
  lemma {:induction false} PresentPlayersComplete(entries: seq<Option<PlayerRecord>>, p: PlayerRecord)
    requires Some(p) in entries
    ensures p in PresentPlayers(entries)
  {
    if entries[0] != Some(p) {
      PresentPlayersComplete(entries[1..], p);
    }
  }

  /** A name is listed exactly when some active player carries it. */
  lemma {:induction false} ActiveNamesMembership(ps: seq<PlayerRecord>, n: string)
    ensures n in ActiveNames(ps) <==> exists p :: p in ps && p.active && p.name == n
  {
    if |ps| > 0 {
      ActiveNamesMembership(ps[1..], n);
      if n in ActiveNames(ps[1..]) {
        var p :| p in ps[1..] && p.active && p.name == n;
        assert p in ps;
      }
      if exists p :: p in ps && p.active && p.name == n {
        var p :| p in ps && p.active && p.name == n;
        if p != ps[0] {
          assert p in ps[1..];
        }
      }
    }
  }

  /** The turn list the handler derives: the first four active names. */
  function TurnList(ps: seq<PlayerRecord>): (names: seq<string>)
    ensures |names| <= 4
    ensures forall n :: n in names ==> exists p :: p in ps && p.active && p.name == n
  {
    var all := ActiveNames(ps);
    var names := if |all| <= 4 then all else all[..4];
    forall n | n in names
      ensures exists p :: p in ps && p.active && p.name == n
    {
      ActiveNamesMembership(ps, n);
    }
    names
  }

  /** The `players` handler.  `data == None` is a missing node. */
  function OnPlayers(s: Session, data: Option<seq<Option<PlayerRecord>>>): (r: Session)
    ensures data.None? ==> r == s
    ensures data.Some? ==> r.roomPlayers == PresentPlayers(data.value)
    // only the room list and the engine's turn list can change
    ensures r.(roomPlayers := s.roomPlayers, game := s.game.(players := r.game.players))
            == s.(game := s.game.(players := r.game.players))
    // the turn list is replaced by at most four active names, or kept
    ensures r.game.players == s.game.players
            || (0 < |r.game.players| <= 4
                && forall n :: n in r.game.players ==>
                     exists p :: p in r.roomPlayers && p.active && p.name == n)
    // never emptied
    ensures |s.game.players| > 0 ==> |r.game.players| > 0
  {
    if data.None? then s
    else
      var list := PresentPlayers(data.value);
      var names := TurnList(list);
      s.(roomPlayers := list,
         game := if |names| > 0 then s.game.(players := names) else s.game)
  }

  /** Without an active player the turn list stays as it was; with one, it
      becomes the active names in store order, cut at four. */
  lemma OnPlayersTurnList(s: Session, entries: seq<Option<PlayerRecord>>)
    ensures var r := OnPlayers(s, Some(entries));
            var all := ActiveNames(PresentPlayers(entries));
            && (|all| == 0 ==> r.game.players == s.game.players)
            && (0 < |all| <= 4 ==> r.game.players == all)
            && (|all| > 4 ==> r.game.players == all[..4])
  {
  }

  /** The `players` handler keeps the engine's round invariant: it only ever
      replaces the turn list by a non-empty one. */
  lemma OnPlayersPreservesValid(s: Session, data: Option<seq<Option<PlayerRecord>>>)
    requires Valid(s.game)
    ensures Valid(OnPlayers(s, data).game)
    ensures OnPlayers(s, data).game == s.game.(players := OnPlayers(s, data).game.players)
  {
  }

  /** The name a peer writes into its join record is the name its own turn
      check compares with, and it stays so while the peer is in the room. */
  lemma JoinedNameIsTurnName(s: Session, code: string, now: int)
    requires code != ""
    ensures var j := JoinRoom(s, code, now);
            j.writes[0].payload.player.name == DisplayName(j.session)
  {
  }

  /** Host and guest have joined: the host's handler turns their two records
      into the turn list host-then-guest, and on turn 0 it is the host's turn
      (the host's own name is the one its join record carries). */
  lemma TwoPlayerRoom(host: Session, guest: Session, t1: int, t2: int)
    ensures var entries := [Some(JoinRecord(host, t1)), Some(JoinRecord(guest, t2))];
            var r := OnPlayers(host, Some(entries));
            && r.roomPlayers == [JoinRecord(host, t1), JoinRecord(guest, t2)]
            && r.game.players == [DisplayName(host), DisplayName(guest)]
            && (r.game.currentPlayer % 2 == 0 ==> MyTurn(r))
  {
    var entries := [Some(JoinRecord(host, t1)), Some(JoinRecord(guest, t2))];
    assert entries[1..][1..] == [];
    var ps := [JoinRecord(host, t1), JoinRecord(guest, t2)];
    assert PresentPlayers(entries) == ps;
    assert ps[1..][1..] == [];
    assert ActiveNames(ps) == [DisplayName(host), DisplayName(guest)];
  }

  // ---------------------------------------------------------------------
  // The `gameState` subscription
  // ---------------------------------------------------------------------

  /** The host's `gameState` snapshot at time `now`. */
  function Snapshot(g: GameState, now: int): (rec: StateRecord)
    ensures rec.timestamp == now
  {
    StateRecord(g.currentPlayer, g.gameOver, g.winner, g.loser, g.bombIndex,
                g.switchStates, g.gameStarted, g.message, now)
  }

  /** A snapshot as read back from the store, every field present. */
  function Received(rec: StateRecord): (d: Incoming)
    ensures d.timestamp == Some(rec.timestamp)
  {
    Incoming(Some(rec.currentPlayer), Some(rec.gameOver), Some(rec.winner),
             Some(rec.loser), Some(rec.bombIndex), Some(rec.switchStates),
             Some(rec.gameStarted), Some(rec.message), Some(rec.timestamp))
  }

  /** The `gameState` handler.  A host ignores every record; a guest copies
      each present field and keeps its own value for each missing one. */
  function OnGameState(s: Session, data: Option<Incoming>): (r: Session)
    ensures data.None? || s.isHost ==> r == s
    ensures data.Some? && !s.isHost ==>
              var d := data.value;
              && r == s.(game := r.game)
              && r.game.players == s.game.players
              && r.game.bombHit == s.game.bombHit
              && (d.currentPlayer.Some? ==> r.game.currentPlayer == d.currentPlayer.value)
              && (d.currentPlayer.None? ==> r.game.currentPlayer == s.game.currentPlayer)
              && (d.gameOver.Some? ==> r.game.gameOver == d.gameOver.value)
              && (d.gameOver.None? ==> r.game.gameOver == s.game.gameOver)
              && (d.winner.Some? ==> r.game.winner == d.winner.value)
              && (d.winner.None? ==> r.game.winner == s.game.winner)
              && (d.loser.Some? ==> r.game.loser == d.loser.value)
              && (d.loser.None? ==> r.game.loser == s.game.loser)
              && (d.bombIndex.Some? ==> r.game.bombIndex == d.bombIndex.value)
              && (d.bombIndex.None? ==> r.game.bombIndex == s.game.bombIndex)
              && (d.switchStates.Some? ==> r.game.switchStates == d.switchStates.value)
              && (d.switchStates.None? ==> r.game.switchStates == s.game.switchStates)
              && (d.gameStarted.Some? ==> r.game.gameStarted == d.gameStarted.value)
              && (d.gameStarted.None? ==> r.game.gameStarted == s.game.gameStarted)
              && (d.message.Some? ==> r.game.message == d.message.value)
              && (d.message.None? ==> r.game.message == s.game.message)
  {
    if data.None? || s.isHost then s
    else
      var d := data.value;
      var g := s.game;
      s.(game := g.(
        currentPlayer := d.currentPlayer.GetOr(g.currentPlayer),
        gameOver := d.gameOver.GetOr(g.gameOver),
        winner := d.winner.GetOr(g.winner),
        loser := d.loser.GetOr(g.loser),
        bombIndex := d.bombIndex.GetOr(g.bombIndex),
        switchStates := d.switchStates.GetOr(g.switchStates),
        gameStarted := d.gameStarted.GetOr(g.gameStarted),
        message := d.message.GetOr(g.message)))
  }

  /** The engine fields a snapshot carries agree between two states. */
  predicate SameSnapshotFields(a: GameState, b: GameState) {
    && a.currentPlayer == b.currentPlayer && a.gameOver == b.gameOver
    && a.winner == b.winner && a.loser == b.loser && a.bombIndex == b.bombIndex
    && a.switchStates == b.switchStates && a.gameStarted == b.gameStarted
    && a.message == b.message
  }

  /** A guest that receives the host's snapshot holds the host's round,
      whatever it held before; its own turn list and sound flag stay. */
  lemma GuestConverges(host: GameState, guest: Session, now: int)
    requires !guest.isHost
    ensures var r := OnGameState(guest, Some(Received(Snapshot(host, now))));
            && SameSnapshotFields(r.game, host)
            && r.game.players == guest.game.players
  {
  }

  /** Receiving the same record twice is the same as receiving it once. */
  lemma OnGameStateIdempotent(s: Session, d: Incoming)
    ensures OnGameState(OnGameState(s, Some(d)), Some(d)) == OnGameState(s, Some(d))
  {
  }

  /** The record's timestamp plays no part: an older record is applied just
      like a newer one. */
  lemma TimestampIgnored(s: Session, d: Incoming, t: Option<int>)
    ensures OnGameState(s, Some(d.(timestamp := t))) == OnGameState(s, Some(d))
  {
  }

  // ---------------------------------------------------------------------
  // Writing state and requests
  // ---------------------------------------------------------------------

  /** `syncGameState()`: a snapshot write, made only by a connected host that
      has a room code. */
  function SyncGameState(s: Session, now: int): (w: seq<Write>)
    ensures |w| <= 1
    ensures |w| == 1 <==> s.isConnected && s.roomCode != "" && s.isHost
    ensures |w| == 1 ==> w[0] == Write(RoomNode(s.roomCode), GameStateKey,
                                       StateData(Snapshot(s.game, now)))
  {
    if !s.isConnected || s.roomCode == "" then []
    else if !s.isHost then []
    else [Write(RoomNode(s.roomCode), GameStateKey, StateData(Snapshot(s.game, now)))]
  }

  /** `resetGameMultiplayer()`: offline and host peers reset their own
      engine (a host then writes the snapshot); a guest only leaves a reset
      request for the host and keeps its session. */
  function ResetGameMultiplayer(s: Session, bomb: int, now: int): (r: (Session, seq<Write>))
    requires 0 <= bomb < SwitchCount
    requires |s.game.players| > 0
    ensures !s.isConnected ==> r == (s.(game := ResetGame(s.game, bomb)), [])
    ensures s.isConnected && s.isHost ==>
              && r.0 == s.(game := ResetGame(s.game, bomb))
              && r.1 == SyncGameState(r.0, now)
    ensures s.isConnected && !s.isHost ==>
              && r.0 == s
              && r.1 == [Write(RoomNode(s.roomCode), ResetRequestKey,
                               RequestData(Request(s.localPlayerId, None, now)))]
  {
    if !s.isConnected then (s.(game := ResetGame(s.game, bomb)), [])
    else if s.isHost then
      var t := s.(game := ResetGame(s.game, bomb));
      (t, SyncGameState(t, now))
    else
      (s, [Write(RoomNode(s.roomCode), ResetRequestKey,
                 RequestData(Request(s.localPlayerId, None, now)))])
  }

  /** It is this peer's turn: its name is the engine's current player. */
  predicate MyTurn(s: Session)
    requires |s.game.players| > 0
    ensures MyTurn(s) ==> DisplayName(s) in s.game.players
    ensures s.game.currentPlayer < |s.game.players| ==>
              (MyTurn(s) <==> s.game.players[s.game.currentPlayer] == DisplayName(s))
  {
    CurrentPlayerName(s.game) == DisplayName(s)
  }

  /** What `pressSwitchMultiplayer(index)` did: the new session, the value
      it returned (`None` is `undefined`), and its writes. */
  datatype Pressed = Pressed(session: Session, result: Option<bool>, writes: seq<Write>)

  /** `pressSwitchMultiplayer(index)`.  The index reaches the engine only on
      the offline and host paths, where it must name a switch. */
  function PressSwitchMultiplayer(s: Session, index: int, now: int): (r: Pressed)
    requires |s.game.players| > 0
    requires (s.isConnected && !s.isHost) || 0 <= index < |s.game.switchStates|
    // offline: the local engine alone
    ensures !s.isConnected ==>
              var e := PressSwitch(s.game, index);
              r == Pressed(s.(game := e.0), Some(e.1), [])
    // connected, not this peer's turn: only the message changes
    ensures s.isConnected && !MyTurn(s) ==>
              r == Pressed(s.(game := s.game.(message := NotYourTurnMessage(CurrentPlayerName(s.game)))),
                           Some(false), [])
    // host on its turn: the engine, then a snapshot write
    ensures s.isConnected && MyTurn(s) && s.isHost ==>
              var e := PressSwitch(s.game, index);
              && r.session == s.(game := e.0)
              && r.result == Some(e.1)
              && r.writes == SyncGameState(r.session, now)
    // guest on its turn: a press request, the session untouched
    ensures s.isConnected && MyTurn(s) && !s.isHost ==>
              r == Pressed(s, None, [Write(RoomNode(s.roomCode), PressRequestKey,
                                           RequestData(Request(s.localPlayerId, Some(index), now)))])
  {
    if !s.isConnected then
      var e := PressSwitch(s.game, index);
      Pressed(s.(game := e.0), Some(e.1), [])
    else
      var current := CurrentPlayerName(s.game);
      if current != DisplayName(s) then
        Pressed(s.(game := s.game.(message := NotYourTurnMessage(current))), Some(false), [])
      else if s.isHost then
        var e := PressSwitch(s.game, index);
        var t := s.(game := e.0);
        Pressed(t, Some(e.1), SyncGameState(t, now))
      else
        Pressed(s, None, [Write(RoomNode(s.roomCode), PressRequestKey,
                                RequestData(Request(s.localPlayerId, Some(index), now)))])
  }

  /** A guest never runs the engine: whatever it presses, its round state is
      untouched (at most the message says whose turn it is), and it writes at
      most one request, only on its own turn. */
  lemma GuestNeverSimulates(s: Session, index: int, now: int)
    requires |s.game.players| > 0
    requires s.isConnected && !s.isHost
    ensures var r := PressSwitchMultiplayer(s, index, now);
            && r.session.game == s.game.(message := r.session.game.message)
            && |r.writes| <= 1
            && (|r.writes| == 1 <==> MyTurn(s))
            && (|r.writes| == 1 ==> r.writes[0].key == PressRequestKey
                                    && r.writes[0].payload.request.from == s.localPlayerId)
  {
  }

  /** A host press keeps the engine's round invariant, and publishes exactly
      the resulting state when, and only when, it was the host's turn. */
  lemma HostPressKeepsRoundValid(s: Session, index: int, now: int)
    requires Valid(s.game)
    requires s.isConnected && s.isHost && s.roomCode != ""
    requires 0 <= index < |s.game.switchStates|
    ensures var r := PressSwitchMultiplayer(s, index, now);
            && Valid(r.session.game)
            && (|r.writes| == 1 <==> MyTurn(s))
            && (|r.writes| == 1 ==> r.writes[0].payload == StateData(Snapshot(r.session.game, now)))
  {
  }

  /** A host reset yields a valid fresh round and publishes it. */
  lemma HostResetPublishes(s: Session, bomb: int, now: int)
    requires |s.game.players| > 0
    requires s.isConnected && s.isHost && s.roomCode != ""
    requires 0 <= bomb < SwitchCount
    ensures var r := ResetGameMultiplayer(s, bomb, now);
            && Valid(r.0.game)
            && r.0.game.bombIndex == bomb
            && |r.1| == 1
            && r.1[0].payload == StateData(Snapshot(r.0.game, now))
  {
  }

  // ---------------------------------------------------------------------
  // Request freshness
  // ---------------------------------------------------------------------

  /** A request is honoured only if one is present and it is less than five
      seconds old at `now`. */
  function Fresh(req: Option<Request>, now: int): (b: bool)
    ensures b <==> req.Some? && now - req.value.timestamp < FreshnessWindow
  {
    req.Some? && req.value.timestamp > now - FreshnessWindow
  }

  /** A fresh request stays fresh at every earlier moment and goes stale for
      good once five seconds have passed. */
  lemma FreshnessExpires(req: Request, now: int, later: int)
    requires now <= later
    ensures Fresh(Some(req), later) ==> Fresh(Some(req), now)
    ensures later - req.timestamp >= FreshnessWindow ==> !Fresh(Some(req), later)
  {
  }
}

=== FILE: wrappers.dfy ===
/** A plain Some/None type with `GetOr`, shared by the other modules. */
module Wrappers {

  /** `None` stands for JavaScript's `undefined`/`null`, or for an operation
      that produced no value. */
  datatype Option<+T> = None | Some(value: T) {

    /** The wrapped value, or `default` when there is none. */
    function GetOr(default: T): T {
      match this
      case Some(v) => v
      case None => default
    }
  }
}
